=== FILE: README.md ===
# Magnetostatic finite-difference solver, modelled in Dafny

`ep3.py` computes the inductance per unit length of a rectangular coaxial
line. Its class `Magnetico` works in four steps:

1. It lays a square lattice of nodes, spaced `delta` apart, over an `a` x `b` domain.
2. It fixes the vector potential on the outer boundary (`externo`). It also
   fixes the potential on the contour of a `c` x `d` inner conductor whose
   lower-left corner sits at `(g, h)` (`interno`).
3. It relaxes the free nodes with Gauss-Seidel sweeps.
4. It derives the magnetic field `H` cell by cell, integrates the tangential
   field around a rectangular path of cells to get the enclosed current, and
   divides the flux by that current. The path starts at the inner contour's
   own left column and bottom row, so the cells of those two sides straddle
   the contour. It ends one node past the contour's right column and top
   row, so the cells of those two sides lie outside the conductor. The sum
   adds `|Hx|` along row `iy0` and `|Hy|` down column `ix0`, and subtracts
   `|Hx|` along row `iy1` and `|Hy|` down column `ix1`.

The model follows that structure.

- `lattice.dfy` (module `Lattice`) holds the lattice as values:
  - `Grid` potentials and a `Mask` of fixed nodes, both indexed `[row][column]`;
  - Python's `int()` as truncation toward zero (`Trunc`);
  - the node count along an extent;
  - the rectangle stamps;
  - the lattice right after construction.
- `relaxation.dfy` (module `Relaxation`) specifies one sweep as a function.
  The sweep runs column `i` outermost and row `j` innermost, skipping fixed
  nodes and reading neighbours as they stand at that moment. This module
  proves:
  - the Gauss-Seidel equations, in both directions;
  - that fixed nodes and the outer ring never change;
  - the discrete maximum principle;
  - the composition of sweeps.
- `field.dfy` (module `MagneticField`) gives the field of each cell by
  finite differences across the 2 x 2 block of nodes.
- `inductance.dfy` (module `Inductance`) contains:
  - the integration path's index box;
  - the line integral as a specification function, plus the loop that
    accumulates it;
  - the inductance with its two failure modes. A path index outside the
    field array models Python's `IndexError`. A zero current models
    `ZeroDivisionError`.
- `magnetico.dfy` (module `Solver`) holds the class `Magnetico`:
  - a `real` potential array and a `bool` array marking the fixed nodes, both
    `array2` updated in place;
  - a constructor that stamps the two contours;
  - the sweep methods, field method and inductance method.

  Each method is proved against the value-level function of the same step.

The source marks a node as fixed by overwriting its float with the string of
the potential. Relaxation then skips every node that is not a float. The
model keeps the potential as a `real` and records "fixed" in the separate
`fixed` array, which gives the same skip decision.

The permeability `mi` is a positive parameter. The sweep count and the
geometry are parameters of the constructor and of the methods.

## Model

| member | source | states |
|---|---|---|
| Lattice.Trunc | ep3.py:31-32 | Python's `int()` on a float: for a non-negative argument the greatest integer not above it, for a negative one the least integer not below it (truncation toward zero). |
| Lattice.NodeCount | ep3.py:31-32 | `int(extent / delta) + 1` nodes. For a non-negative extent there is at least one node, and the realised extent `(n-1)·delta` is at most the extent and falls short of it by less than `delta`. |
| Lattice.Zeros | ep3.py:35 | The fresh lattice has the requested shape and every node is 0.0. |
| Lattice.BoxOf | ep3.py:44 | The corner coordinates divided by `delta` and truncated. Ordered non-negative coordinates give ordered non-negative indices. |
| Lattice.StampPotential | ep3.py:47-52 | Stamping keeps the shape, puts `v` on every node of the box's contour, and leaves every other node as it was. |
| Lattice.StampMask | ep3.py:47-52 | After stamping, a node is fixed exactly when it lies on the box's contour or was fixed before. |
| Lattice.InitialPotential | ep3.py:35-40 | The constructed lattice has `rows` x `cols` nodes and holds the inner potential on every node of the inner contour. |
| Lattice.InitialMask | ep3.py:35-40 | In the constructed lattice a node is fixed exactly when it lies on the inner contour or on the outer ring. |
| Lattice.OuterBoxOf | ep3.py:38 | Stamping the rectangle (0, 0)-(a, b) covers exactly the outermost ring of the `NodeCount(b)` x `NodeCount(a)` lattice. |
| Lattice.BoxOfInGrid | ep3.py:39-40 | A contour with non-negative corners whose far corner truncates to an existing node index touches only valid nodes. |
| Lattice.InitialLayout | ep3.py:35-40 | After construction the inner contour holds `interno`, wins where it meets the ring, and is fixed. The rest of the outer ring holds `externo` and is fixed. Every other node is a free 0.0. |
| Lattice.InitialWithin | ep3.py:35-40 | After construction every node lies between the smallest and the largest of 0.0, `externo` and `interno`. |
| Relaxation.Mean4 | ep3.py:54-62 | The new value of a node lies between the smallest and the largest of its four neighbours. |
| Relaxation.UpdateNode | ep3.py:117-118 | A visit gives a free node the mean of its neighbours and leaves a fixed node as it was. Every other node is unchanged. |
| Relaxation.Sweep | ep3.py:115-120 | A sweep keeps the lattice's shape and never changes a fixed node or a node on the outer ring. |
| Relaxation.GaussSeidelStep | ep3.py:115-118 | After a sweep, each free interior node holds the mean of two groups of neighbours. Its left and lower-row neighbours count with their post-sweep values, and its right and upper-row neighbours with their pre-sweep values. |
| Relaxation.SweepVisited | ep3.py:115-118 | When the sweep reaches a free interior node, the node takes the mean of its neighbours as they stand then. Its left and lower neighbours already hold their final values of the sweep. |
| Relaxation.NotYetVisited | ep3.py:115-118 | When the sweep reaches an interior node, its right and upper neighbours still hold their values from before the sweep. |
| Relaxation.SweepSatisfiesGaussSeidel | ep3.py:115-120 | The swept lattice satisfies the Gauss-Seidel equation at every free interior node and keeps every other node. |
| Relaxation.GaussSeidelDetermines | ep3.py:115-120 | Any lattice satisfying those equations is the swept lattice, so the equations characterise the sweep. |
| Relaxation.SweepWithin | ep3.py:115-120 | Discrete maximum principle for one sweep: bounds every node obeyed before still hold after. |
| Relaxation.SweepWithoutFreeNodes | ep3.py:115-120 | When every interior node is fixed, a sweep changes nothing. |
| Relaxation.Relax | ep3.py:112-120 | After any number of sweeps the shape is the same, and fixed nodes and the outer ring keep their values. |
| Relaxation.RelaxWithin | ep3.py:112-120 | After any number of sweeps, bounds that held before still hold. |
| Relaxation.RelaxCompose | ep3.py:112-120 | `p` sweeps followed by `q` sweeps equal `p + q` sweeps. This is what calling `iterarPotenciais` repeatedly relies on. |
| Relaxation.MaximumPrinciple | ep3.py:107-120 | From the constructed lattice, no number of sweeps takes a potential outside the range spanned by 0.0, `externo` and `interno`. |
| MagneticField.CellH | ep3.py:54-71 | `Hx` is positive exactly when the left column of the cell has the larger potential sum, and zero exactly when both columns have the same sum. `Hy` compares the lower row with the upper row in the same way. |
| MagneticField.Scaled | ep3.py:69-70 | Scaling by `1/(mi·10^6)` and dividing by `2·delta` keeps the sign of the difference, and keeps zero at zero. |
| MagneticField.Field | ep3.py:73-78 | The field array has one row and one column fewer than the lattice. |
| MagneticField.RampField | ep3.py:64-71 | A potential growing by `k` per column gives `Hy = 0` and `Hx = -k / (mi·10^6·delta)` in every cell. |
| MagneticField.FieldIgnoresShift | ep3.py:64-71 | Adding a constant to every potential leaves every cell's field unchanged, because only differences enter. |
| Inductance.PathBox | ep3.py:85-90 | For non-negative lengths and offsets, the path box is the inner contour's box widened by one node to the right and one node upward. Its left column and bottom row are those of the contour. |
| Inductance.SumX | ep3.py:94-96 | The horizontal sides contribute nothing when `\|Hx\|` on row `iy0` equals `\|Hx\|` on row `iy1` column by column. |
| Inductance.SumY | ep3.py:97-99 | The vertical sides contribute nothing when `\|Hy\|` on column `ix0` equals `\|Hy\|` on column `ix1` row by row. |
| Inductance.PathCurrent | ep3.py:93-99 | The current is 0 when opposite sides carry equal magnitudes. |
| Inductance.PathIntegral | ep3.py:92-99 | The two accumulation loops compute exactly the path current. That current is `+\|Hx\|` along row `iy0`, `-\|Hx\|` along row `iy1`, `+\|Hy\|` down column `ix0` and `-\|Hy\|` down column `ix1`. |
| Inductance.InductanceOf | ep3.py:101-104 | The inductance is defined exactly when the path lies inside the field and the current is non-zero. It is `PathOutsideField` exactly when a path index falls outside, and `ZeroCurrent` exactly when the current is 0. |
| Inductance.InductanceTimesCurrent | ep3.py:103-104 | Whenever the inductance is defined, inductance times current equals the flux `interno / 10^6`. |
| Inductance.InductanceFrom | ep3.py:84-105 | Index bookkeeping, integral and division together return `InductanceOf` for the given field and path. |
| Inductance.PathInsideExactly | ep3.py:85-90 | On a lattice built from `a` and `b`, the path fits the field exactly when the truncated far corner of the conductor stays at least two nodes short of the last node, in each direction. |
| Inductance.PathInsideWithMargin | ep3.py:85-90 | A gap of at least two grid steps between the conductor and the domain edge keeps the path inside the field. |
| Inductance.FarIndex | ep3.py:85-90 | For a non-negative offset and length, the path's far index is one past the conductor's truncated far corner and never below its near index. |
| Inductance.CurrentReadsOnlyPath | ep3.py:92-99 | The current depends only on `Hx` along rows `iy0` and `iy1` and on `Hy` along columns `ix0` and `ix1`. |
| Inductance.BalancedSidesCancel | ep3.py:92-104 | With equal magnitudes on opposite sides the signed sum is 0, and the inductance is `ZeroCurrent`. |
| Solver.Magnetico.Snapshot | ep3.py:54-55 | The value view of the potential array: same shape, and node `(j, i)` is `pot[j, i]`. |
| Solver.Magnetico.constructor | ep3.py:8-40 | The lattice has `NodeCount(b)` rows and `NodeCount(a)` columns. Its potentials and fixed mask are exactly `InitialPotential` and `InitialMask`: outer ring at `externo`, then inner contour at `interno`. |
| Solver.Magnetico.StampContours | ep3.py:38-40 | On a blank lattice the two stamps produce exactly `InitialPotential` and `InitialMask`. |
| Solver.Magnetico.StampRectangle | ep3.py:43-52 | Every node on the contour of the truncated rectangle is set to the potential and fixed, and every other node and flag is unchanged. |
| Solver.Magnetico.StampRows | ep3.py:47-49 | The first loop sets rows `iy0` and `iy1` across columns `ix0..ix1`, and nothing else. |
| Solver.Magnetico.StampColumns | ep3.py:50-52 | The second loop sets columns `ix0` and `ix1` across rows `iy0..iy1`, and nothing else. |
| Solver.Magnetico.Fix | ep3.py:48-49 | One store: the node takes the potential and becomes fixed, and every other node is unchanged. |
| Solver.Magnetico.RelaxNode | ep3.py:117-120 | One visit: a free node takes the mean of its neighbours as they currently stand, and a fixed node is skipped. |
| Solver.Magnetico.SweepColumn | ep3.py:116-120 | The inner loop over rows leaves the array as the sweep's specification prescribes once column `i` is done. |
| Solver.Magnetico.SweepGrid | ep3.py:115-120 | One pass of the two loops leaves the array equal to `Sweep` of the previous potentials under the fixed mask. |
| Solver.Magnetico.IteratePotentials | ep3.py:107-120 | `n` passes equal `Relax` applied `n` times, with none when `n` is not positive. Fixed nodes and the outer ring keep their values, and any bounds the potentials obeyed still hold. |
| Solver.Magnetico.Relaxed | ep3.py:112-120 | Once the array holds `k` sweeps of a lattice, its fixed nodes and outer ring still hold that lattice's values, and bounds that lattice obeyed still hold. |
| Solver.Magnetico.FieldH | ep3.py:73-78 | The column-major loops build exactly `Field` of the current potentials. |
| Solver.Magnetico.InductanceEstimate | ep3.py:80-105 | Returns `InductanceOf` the current field over the path box `int(g/delta) .. int((g+c+delta)/delta)` by `int(h/delta) .. int((h+d+delta)/delta)`, with the inner potential as flux. The result is anything but `PathOutsideField` exactly when the truncated far corner of the conductor stays two nodes short of the last node in each direction. |

## Left out

- The driver script at the bottom of `ep3.py` is not modelled. That includes the fixed problem instance, the outer loop of 50 rounds of 100 sweeps, and the stop when two inductances are equal. The model provides the operations it calls; `RelaxCompose` relates repeated calls.
- Plotting (matplotlib) and every `print` are not modelled, because they are output only.
- Floating point is modelled as exact `real` arithmetic, so IEEE rounding is not modelled. For example, the quotients inside `int(x / delta)` can land just below an integer in binary floating point and truncate one lower than the exact quotient.
- The permeability is a parameter `mi > 0`. The source computes it as `mi_r · 1.2566 · 10^-6`, and that constant is not part of the model.
- The source marks fixed nodes by storing `str(potencial)` in the node list and tests `isinstance(..., float)` to skip them. The model stores the value as a `real` and keeps the mark in a separate boolean array. The mixed list of floats and strings is not modelled.
- Solver.Magnetico.constructor: requires a positive step `delta`, a positive permeability, non-negative lengths and offsets, and an inner contour whose far corner lies inside the lattice. These inputs are treated as configuration errors to reject at setup, and the model does not follow what the source does with them:
  - `delta = 0` raises `ZeroDivisionError` at `ep3.py:31`. A negative `delta` turns `int(a / delta)` non-positive, so the lattice has one node or none in a direction and the stamps run empty, wrap around or raise `IndexError`.
  - `mi_r = 0` raises `ZeroDivisionError` in the field formula at `ep3.py:69`. A negative `mi_r` runs to the end with every field component, and so the current, of the opposite sign.
  - A length `a` or `b` in `(-delta, 0)` truncates to index 0 and gives a lattice one node wide that runs normally. A more negative length leaves the rows empty or short, so a stamp either runs empty or raises `IndexError`.
  - A negative `c` or `d` with `g + c >= 0` or `h + d >= 0` gives a far index below the near one. The first stamp loop at `ep3.py:47` is then empty, and the second at `ep3.py:50-52` silently stamps a degenerate contour of two columns. The source then runs to the end.
  - An offset `g` or `h` of `-delta` or less gives a negative index, which Python wraps to the far end of the list.
  - A far corner past the last node raises `IndexError` at `ep3.py:48-49` or `ep3.py:51-52`.
  - `Valid()` carries the positive step and the non-negative lengths and offsets to every method.
- Solver.Magnetico.InductanceEstimate: checks up front whether the path lies inside the field, and returns `PathOutsideField` instead of failing part-way through the summation. Negative path indices count as outside, where Python would wrap them. The constructor's non-negative offsets rule out negative indices for the class.
- Solver.Magnetico.FieldH: the array starts out filled with `Cell(0.0, 0.0)` where the source uses `None`. Every entry is overwritten before the method returns.
- Solver.Magnetico.IteratePotentials: the bound it preserves is stated for any bounds the potentials already obey. `Relaxation.MaximumPrinciple` applies `RelaxWithin`, the value-level counterpart, to `InitialPotential` and `InitialMask` with the bounds 0.0 and the two contour potentials, since free nodes start at 0.0.

=== FILE: field.dfy ===
/**
 * The magnetic field H derived from the node potentials: one vector per cell,
 * a cell being the 2 x 2 block of nodes whose lower-left corner is
 * (column i, row j). The permeability mi and the grid step delta are positive
 * parameters; potentials are in micro-webers per metre, hence the 10^6.
 */
module MagneticField {
  import opened Lattice

  datatype Cell = Cell(hx: real, hy: real)

  /**
   * The field of cell (column i, row j) by finite differences across the
   * cell, whose lower-left node the row-major lattice holds at g[j][i].
   * Hx is positive exactly when the potential falls from the cell's left
   * column to its right column, and zero exactly when the two columns have
   * the same sum; Hy likewise compares the lower row with the upper row.
   */
  function CellH(g: Grid, i: int, j: int, mi: real, delta: real): (r: Cell)
    requires Rectangular(g) && 0 <= j < |g| - 1 && 0 <= i < Width(g) - 1
    requires mi > 0.0 && delta > 0.0
    ensures r.hx > 0.0 <==> g[j][i] + g[j + 1][i] > g[j][i + 1] + g[j + 1][i + 1]
    ensures r.hx == 0.0 <==> g[j][i] + g[j + 1][i] == g[j][i + 1] + g[j + 1][i + 1]
    ensures r.hy > 0.0 <==> g[j][i] + g[j][i + 1] > g[j + 1][i] + g[j + 1][i + 1]
    ensures r.hy == 0.0 <==> g[j][i] + g[j][i + 1] == g[j + 1][i] + g[j + 1][i + 1]
  {
    var a1 := g[j][i];
    var a2 := g[j][i + 1];
    var a3 := g[j + 1][i];
    var a4 := g[j + 1][i + 1];
    Cell(Scaled(a1 + a3 - a2 - a4, mi, delta), Scaled(a1 + a2 - a3 - a4, mi, delta))
  }

  /**
   * A difference of two-node sums turned into a field component: scaled by
   * 1 / (mi * 10^6) and divided by 2 * delta, both positive, so it keeps the
   * sign of the difference.
   */
  function Scaled(x: real, mi: real, delta: real): (y: real)
    requires mi > 0.0 && delta > 0.0
    ensures y > 0.0 <==> x > 0.0
    ensures y == 0.0 <==> x == 0.0
  {
    var s, e := mi * 1000000.0, 2.0 * delta;
    var y := (1.0 / s) * x / e;
    assert y * e * s == x;
    y
  }

  /** The field of every cell: (rows - 1) x (cols - 1) cells, F[j][i] being cell (column i, row j). */
  function Field(g: Grid, mi: real, delta: real): (f: seq<seq<Cell>>)
    requires Rectangular(g) && |g| >= 1 && Width(g) >= 1
    requires mi > 0.0 && delta > 0.0
    ensures IsGrid(f, |g| - 1, Width(g) - 1) && Rectangular(f)
  {
    seq(|g| - 1, j requires 0 <= j < |g| - 1 =>
      seq(Width(g) - 1, i requires 0 <= i < Width(g) - 1 => CellH(g, i, j, mi, delta)))
  }

  /** The potential k * i that grows linearly with the column index. */
  function Ramp(rows: nat, cols: nat, k: real): (g: Grid)
    ensures IsGrid(g, rows, cols)
  {
    seq(rows, _ => seq(cols, i => k * i as real))
  }

  /**
   * For a potential growing by k per column, every cell has Hy = 0 and
   * Hx = -k / (mi * 10^6 * delta): the field along the ramp is exactly the
   * finite-difference slope.
   */
  lemma RampField(rows: nat, cols: nat, k: real, mi: real, delta: real)
    requires rows >= 1 && cols >= 1 && mi > 0.0 && delta > 0.0
    ensures forall j, i :: 0 <= j < rows - 1 && 0 <= i < cols - 1 ==>
      Field(Ramp(rows, cols, k), mi, delta)[j][i] == Cell(-k / (mi * 1000000.0 * delta), 0.0)
  {
    var g := Ramp(rows, cols, k);
    var f := Field(g, mi, delta);
    forall j, i | 0 <= j < rows - 1 && 0 <= i < cols - 1
      ensures f[j][i] == Cell(-k / (mi * 1000000.0 * delta), 0.0)
    {
      var x := k * i as real;
      var y := k * (i + 1) as real;
      assert y == x + k;
      assert f[j][i] == CellH(g, i, j, mi, delta);
      ScaledDifference(mi, delta, -k);
    }
  }

  /** (1 / (mi * 10^6)) * (2d) / (2 delta) is d / (mi * 10^6 * delta). */
  lemma ScaledDifference(mi: real, delta: real, d: real)
    requires mi > 0.0 && delta > 0.0
    ensures (1.0 / (mi * 1000000.0)) * (d + d) / (2.0 * delta) == d / (mi * 1000000.0 * delta)
  {
    var s := mi * 1000000.0;
    assert (1.0 / s) * (d + d) == (d + d) / s;
    assert (d + d) / s / (2.0 * delta) == (d + d) / (s * (2.0 * delta));
    assert (d + d) / (s * (2.0 * delta)) == d / (s * delta);
  }

  /** The potential g with the constant k added to every node. */
  function Shift(g: Grid, k: real): (r: Grid)
    ensures |r| == |g| && forall j :: 0 <= j < |g| ==> |r[j]| == |g[j]|
  {
    seq(|g|, j requires 0 <= j < |g| => seq(|g[j]|, i requires 0 <= i < |g[j]| => g[j][i] + k))
  }

  /** The field sees only potential differences: adding a constant to every node leaves every cell unchanged. */
  lemma FieldIgnoresShift(g: Grid, k: real, mi: real, delta: real)
    requires Rectangular(g) && |g| >= 1 && Width(g) >= 1 && mi > 0.0 && delta > 0.0
    ensures Rectangular(Shift(g, k)) && Width(Shift(g, k)) == Width(g)
    ensures Field(Shift(g, k), mi, delta) == Field(g, mi, delta)
  {
    var s := Shift(g, k);
    assert Width(s) == Width(g);
    var fs, f := Field(s, mi, delta), Field(g, mi, delta);
    forall j, i | 0 <= j < |g| - 1 && 0 <= i < Width(g) - 1
      ensures fs[j][i] == f[j][i]
    {
      assert fs[j][i] == CellH(s, i, j, mi, delta);
      assert f[j][i] == CellH(g, i, j, mi, delta);
      var a1, a2, a3, a4 := g[j][i], g[j][i + 1], g[j + 1][i], g[j + 1][i + 1];
      assert s[j][i] == a1 + k && s[j][i + 1] == a2 + k && s[j + 1][i] == a3 + k && s[j + 1][i + 1] == a4 + k;
      assert (a1 + k) + (a3 + k) - (a2 + k) - (a4 + k) == a1 + a3 - a2 - a4;
      assert (a1 + k) + (a2 + k) - (a3 + k) - (a4 + k) == a1 + a2 - a3 - a4;
    }
    GridEq(fs, f, |g| - 1, Width(g) - 1);
  }
}

=== FILE: inductance.dfy ===
/**
 * Inductance per unit length from the field cells: around a rectangle of
 * cells, |Hx| is added along row iy0 and subtracted along row iy1, and |Hy|
 * is added down column ix0 and subtracted down column ix1, giving the
 * enclosed current; the flux (the inner contour potential, scaled from
 * micro-webers per metre) is divided by that current. The rectangle starts at the inner contour's own
 * left column and bottom row, so the cells of those two sides straddle the
 * contour, and it ends one node past the contour's right column and top row,
 * so the cells of those two sides lie outside it.
 */
module Inductance {
  import opened Lattice
  import opened MagneticField

  datatype Fault =
    | PathOutsideField  // a path cell index falls outside the field array
    | ZeroCurrent       // the summed current is 0, so flux / current is undefined

  datatype Result<T> = Ok(value: T) | Err(fault: Fault)

  function Abs(x: real): real { if x >= 0.0 then x else -x }

  /**
   * The cell rectangle of the integration path for an inner conductor of size
   * c x d at offset (g, h): the conductor's lower-left corner, and its far
   * corner pushed out by one step delta, each truncated to an index. For
   * non-negative sizes and offsets this is the stamped inner contour with its
   * right column and top row moved out by one, and its left column and bottom
   * row where they are.
   */
  function PathBox(c: real, d: real, g: real, h: real, delta: real): (r: Box)
    requires delta > 0.0
    ensures 0.0 <= c && 0.0 <= d && 0.0 <= g && 0.0 <= h ==>
      var inner := BoxOf(g, h, g + c, h + d, delta);
      r == Box(inner.ix0, inner.ix1 + 1, inner.iy0, inner.iy1 + 1)
  {
    FarIndex(g, c, delta);
    FarIndex(h, d, delta);
    Box(Trunc(g / delta), Trunc((g + c + delta) / delta), Trunc(h / delta), Trunc((h + d + delta) / delta))
  }

  /** Every cell index the path reads lies inside the field array f. */
  predicate PathInside(f: seq<seq<Cell>>, p: Box) {
    0 <= p.ix0 < Width(f) && 0 <= p.ix1 < Width(f) && 0 <= p.iy0 < |f| && 0 <= p.iy1 < |f|
  }

  /** How many indices range(lo, hi + 1) holds. */
  function Span(lo: int, hi: int): nat {
    if lo <= hi then hi - lo + 1 else 0
  }

  /**
   * Horizontal sides, columns ix0 .. ix0 + n - 1: |Hx| on row iy0 minus |Hx|
   * on row iy1. The two sides enter with opposite signs, so where their
   * magnitudes match column by column they cancel.
   */
  function SumX(f: seq<seq<Cell>>, p: Box, n: nat): (r: real)
    requires Rectangular(f) && PathInside(f, p) && n <= Span(p.ix0, p.ix1)
    ensures (forall i :: p.ix0 <= i < p.ix0 + n ==> Abs(f[p.iy0][i].hx) == Abs(f[p.iy1][i].hx)) ==> r == 0.0
  {
    if n == 0 then 0.0
    else SumX(f, p, n - 1) + Abs(f[p.iy0][p.ix0 + n - 1].hx) - Abs(f[p.iy1][p.ix0 + n - 1].hx)
  }

  /**
   * Vertical sides, rows iy0 .. iy0 + n - 1: |Hy| on column ix0 minus |Hy| on
   * column ix1. Where the magnitudes match row by row the two sides cancel.
   */
  function SumY(f: seq<seq<Cell>>, p: Box, n: nat): (r: real)
    requires Rectangular(f) && PathInside(f, p) && n <= Span(p.iy0, p.iy1)
    ensures (forall j :: p.iy0 <= j < p.iy0 + n ==> Abs(f[j][p.ix0].hy) == Abs(f[j][p.ix1].hy)) ==> r == 0.0
  {
    if n == 0 then 0.0
    else SumY(f, p, n - 1) + Abs(f[p.iy0 + n - 1][p.ix0].hy) - Abs(f[p.iy0 + n - 1][p.ix1].hy)
  }

  /**
   * The enclosed current: the signed sum of tangential magnitudes over the
   * four sides of the path. It is zero whenever opposite sides carry equal
   * magnitudes.
   */
  function PathCurrent(f: seq<seq<Cell>>, p: Box): (r: real)
    requires Rectangular(f) && PathInside(f, p)
    ensures BalancedSides(f, p) ==> r == 0.0
  {
    SumX(f, p, Span(p.ix0, p.ix1)) + SumY(f, p, Span(p.iy0, p.iy1))
  }

  /**
   * The line integral of H along the path, accumulated as the loops do it:
   * across the columns, |Hx| of row iy0 added and |Hx| of row iy1 taken off;
   * then down the rows, |Hy| of column ix0 added and |Hy| of column ix1 taken off.
   */
  method PathIntegral(f: seq<seq<Cell>>, p: Box) returns (integral: real)
    requires Rectangular(f) && PathInside(f, p)
    ensures integral == PathCurrent(f, p)
  {
    integral := 0.0;
    var i := p.ix0;
    while i <= p.ix1
      invariant p.ix0 <= i && (i <= p.ix1 + 1 || i == p.ix0)
      invariant integral == SumX(f, p, i - p.ix0)
    {
      integral := integral + Abs(f[p.iy0][i].hx);
      integral := integral + -Abs(f[p.iy1][i].hx);
      i := i + 1;
    }
    assert i - p.ix0 == Span(p.ix0, p.ix1);
    var j := p.iy0;
    while j <= p.iy1
      invariant p.iy0 <= j && (j <= p.iy1 + 1 || j == p.iy0)
      invariant integral == SumX(f, p, Span(p.ix0, p.ix1)) + SumY(f, p, j - p.iy0)
    {
      integral := integral + Abs(f[j][p.ix0].hy);
      integral := integral + -Abs(f[j][p.ix1].hy);
      j := j + 1;
    }
  }

  /**
   * The inductance per unit length: the flux ai / 10^6 divided by the path
   * current. It is defined exactly when the path lies inside the field and
   * the current is not zero; InductanceTimesCurrent shows that inductance
   * times current is then the flux.
   */
  function InductanceOf(f: seq<seq<Cell>>, p: Box, ai: real): (r: Result<real>)
    requires Rectangular(f)
    ensures r.Ok? <==> PathInside(f, p) && PathCurrent(f, p) != 0.0
    ensures r == Err(PathOutsideField) <==> !PathInside(f, p)
    ensures r == Err(ZeroCurrent) <==> PathInside(f, p) && PathCurrent(f, p) == 0.0
  {
    if !PathInside(f, p) then Err(PathOutsideField)
    else
      var current := PathCurrent(f, p);
      if current == 0.0 then Err(ZeroCurrent) else Ok((ai / 1000000.0) / current)
  }

  /**
   * The inductance computed from a field array: the path is checked against
   * the array, the line integral accumulated, and the flux divided by it.
   */
  method InductanceFrom(f: seq<seq<Cell>>, p: Box, ai: real) returns (r: Result<real>)
    requires Rectangular(f)
    ensures r == InductanceOf(f, p, ai)
  {
    if !PathInside(f, p) {
      return Err(PathOutsideField);
    }
    var current := PathIntegral(f, p);
    var flux := ai / 1000000.0;
    if current == 0.0 {
      return Err(ZeroCurrent);
    }
    r := Ok(flux / current);
  }

  /** Whenever the inductance is defined, inductance times the path current gives back the flux ai / 10^6. */
  lemma InductanceTimesCurrent(f: seq<seq<Cell>>, p: Box, ai: real)
    requires Rectangular(f) && InductanceOf(f, p, ai).Ok?
    ensures InductanceOf(f, p, ai).value * PathCurrent(f, p) == ai / 1000000.0
  {
    var current := PathCurrent(f, p);
    assert InductanceOf(f, p, ai).value == (ai / 1000000.0) / current;
  }

  /**
   * For a lattice of NodeCount(a) columns and NodeCount(b) rows (so a field
   * of one column and one row fewer), the path lies inside the field exactly
   * when the conductor's far corner, truncated to an index, stays at least
   * two nodes short of the lattice's last node in each direction.
   */
  lemma PathInsideExactly(a: real, b: real, c: real, d: real, g: real, h: real, delta: real, f: seq<seq<Cell>>)
    requires delta > 0.0 && a >= 0.0 && b >= 0.0 && c >= 0.0 && d >= 0.0 && g >= 0.0 && h >= 0.0
    requires IsGrid(f, NodeCount(b, delta) - 1, NodeCount(a, delta) - 1)
    ensures PathInside(f, PathBox(c, d, g, h, delta)) <==>
      Trunc((g + c) / delta) + 2 <= Trunc(a / delta) && Trunc((h + d) / delta) + 2 <= Trunc(b / delta)
  {
    var p := PathBox(c, d, g, h, delta);
    FarIndex(g, c, delta);
    FarIndex(h, d, delta);
    assert Width(f) == Trunc(a / delta) || |f| == 0;
  }

  /** The far index of the path side: one more than the truncated far corner, and never below the near index. */
  lemma FarIndex(g: real, c: real, delta: real)
    requires delta > 0.0
    ensures g >= 0.0 && c >= 0.0 ==>
      0 <= Trunc(g / delta) <= Trunc((g + c + delta) / delta) == Trunc((g + c) / delta) + 1
  {
    if g >= 0.0 && c >= 0.0 {
      DivSteps(g + c, delta, 1.0);
      assert g / delta <= (g + c) / delta;
      TruncMonotone(g / delta, (g + c) / delta);
      TruncPlusOne((g + c) / delta);
    }
  }

  /** A margin of two steps between conductor and domain edge keeps the path inside the field. */
  lemma PathInsideWithMargin(a: real, b: real, c: real, d: real, g: real, h: real, delta: real, f: seq<seq<Cell>>)
    requires delta > 0.0 && c >= 0.0 && d >= 0.0 && g >= 0.0 && h >= 0.0
    requires g + c + 2.0 * delta <= a && h + d + 2.0 * delta <= b
    requires IsGrid(f, NodeCount(b, delta) - 1, NodeCount(a, delta) - 1)
    ensures PathInside(f, PathBox(c, d, g, h, delta))
  {
    TwoStepsShort(g + c, a, delta);
    TwoStepsShort(h + d, b, delta);
    PathInsideExactly(a, b, c, d, g, h, delta, f);
  }

  lemma TwoStepsShort(x: real, a: real, delta: real)
    requires delta > 0.0 && x >= 0.0 && x + 2.0 * delta <= a
    ensures Trunc(x / delta) + 2 <= Trunc(a / delta)
  {
    var q := x / delta;
    assert q + 2.0 <= a / delta by {
      DivSteps(x, delta, 2.0);
      assert (x + 2.0 * delta) / delta <= a / delta;
    }
    assert Trunc(q + 2.0) == Trunc(q) + 2 by {
      TruncPlusOne(q);
      TruncPlusOne(q + 1.0);
    }
    TruncMonotone(q + 2.0, a / delta);
  }

  /** Adding k steps of delta adds k to the quotient by delta. */
  lemma DivSteps(x: real, delta: real, k: real)
    requires delta > 0.0
    ensures (x + k * delta) / delta == x / delta + k
  {
    assert (x / delta + k) * delta == x + k * delta;
  }

  /** Two field arrays that agree on the path's cells (the components the path reads). */
  predicate AgreeOnPath(f1: seq<seq<Cell>>, f2: seq<seq<Cell>>, p: Box)
    requires Rectangular(f1) && Rectangular(f2) && PathInside(f1, p) && PathInside(f2, p)
  {
    (forall i :: p.ix0 <= i <= p.ix1 ==>
       f1[p.iy0][i].hx == f2[p.iy0][i].hx && f1[p.iy1][i].hx == f2[p.iy1][i].hx) &&
    (forall j :: p.iy0 <= j <= p.iy1 ==>
       f1[j][p.ix0].hy == f2[j][p.ix0].hy && f1[j][p.ix1].hy == f2[j][p.ix1].hy)
  }

  /** The current depends only on the Hx of rows iy0, iy1 and the Hy of columns ix0, ix1 along the path. */
  lemma CurrentReadsOnlyPath(f1: seq<seq<Cell>>, f2: seq<seq<Cell>>, p: Box)
    requires Rectangular(f1) && Rectangular(f2) && PathInside(f1, p) && PathInside(f2, p)
    requires AgreeOnPath(f1, f2, p)
    ensures PathCurrent(f1, p) == PathCurrent(f2, p)
  {
    SumXAgree(f1, f2, p, Span(p.ix0, p.ix1));
    SumYAgree(f1, f2, p, Span(p.iy0, p.iy1));
  }

  lemma {:induction false} SumXAgree(f1: seq<seq<Cell>>, f2: seq<seq<Cell>>, p: Box, n: nat)
    requires Rectangular(f1) && Rectangular(f2) && PathInside(f1, p) && PathInside(f2, p)
    requires AgreeOnPath(f1, f2, p) && n <= Span(p.ix0, p.ix1)
    ensures SumX(f1, p, n) == SumX(f2, p, n)
  {
    if n > 0 {
      SumXAgree(f1, f2, p, n - 1);
      var i := p.ix0 + n - 1;
      assert f1[p.iy0][i].hx == f2[p.iy0][i].hx && f1[p.iy1][i].hx == f2[p.iy1][i].hx;
    }
  }

  lemma {:induction false} SumYAgree(f1: seq<seq<Cell>>, f2: seq<seq<Cell>>, p: Box, n: nat)
    requires Rectangular(f1) && Rectangular(f2) && PathInside(f1, p) && PathInside(f2, p)
    requires AgreeOnPath(f1, f2, p) && n <= Span(p.iy0, p.iy1)
    ensures SumY(f1, p, n) == SumY(f2, p, n)
  {
    if n > 0 {
      SumYAgree(f1, f2, p, n - 1);
      var j := p.iy0 + n - 1;
      assert f1[j][p.ix0].hy == f2[j][p.ix0].hy && f1[j][p.ix1].hy == f2[j][p.ix1].hy;
    }
  }

  /** Opposite sides carry equal tangential magnitudes along the whole path. */
  predicate BalancedSides(f: seq<seq<Cell>>, p: Box)
    requires Rectangular(f) && PathInside(f, p)
  {
    (forall i :: p.ix0 <= i <= p.ix1 ==> Abs(f[p.iy0][i].hx) == Abs(f[p.iy1][i].hx)) &&
    (forall j :: p.iy0 <= j <= p.iy1 ==> Abs(f[j][p.ix0].hy) == Abs(f[j][p.ix1].hy))
  }

  /**
   * Because the top side (row iy1) and the right side (column ix1) enter the
   * sum with a minus sign, a field whose magnitudes match on opposite sides
   * gives zero current, and the inductance is undefined.
   */
  lemma BalancedSidesCancel(f: seq<seq<Cell>>, p: Box, ai: real)
    requires Rectangular(f) && PathInside(f, p) && BalancedSides(f, p)
    ensures PathCurrent(f, p) == 0.0
    ensures InductanceOf(f, p, ai) == Err(ZeroCurrent)
  {
  }
}

=== FILE: lattice.dfy ===
/**
 * The node lattice of the magnetostatic problem, as values: the potential of
 * every node and the mask of fixed (boundary) nodes, both indexed
 * [row][column], and the rectangular contours stamped onto them.
 */
module Lattice {
  /** Potential of every node: g[j][i] is the node in row j, column i. */
  type Grid = seq<seq<real>>
  /** m[j][i] holds when node (row j, column i) belongs to a boundary contour. */
  type Mask = seq<seq<bool>>

  function Min(x: real, y: real): real { if x <= y then x else y }
  function Max(x: real, y: real): real { if x >= y then x else y }

  /**
   * Conversion of a real to an integer as Python's int() does it: truncation
   * toward zero, so the result is the integer next to x on the side of 0.
   */
  function Trunc(x: real): (r: int)
    ensures x >= 0.0 ==> 0 <= r && r as real <= x < r as real + 1.0
    ensures x < 0.0 ==> r <= 0 && r as real - 1.0 < x <= r as real
  {
    if x >= 0.0 then x.Floor else -((-x).Floor)
  }

  lemma TruncMonotone(x: real, y: real)
    requires 0.0 <= x <= y
    ensures Trunc(x) <= Trunc(y)
  {
  }

  lemma TruncPlusOne(x: real)
    requires x >= 0.0
    ensures Trunc(x + 1.0) == Trunc(x) + 1
  {
  }

  /**
   * Number of nodes along a physical extent with spacing delta: the extent
   * divided by delta, truncated, plus one. The realised extent (n - 1) * delta
   * never exceeds the requested one and falls short of it by less than delta.
   */
  function NodeCount(extent: real, delta: real): (n: int)
    requires delta > 0.0
    ensures extent >= 0.0 ==> 1 <= n && (n - 1) as real * delta <= extent < n as real * delta
  {
    if extent >= 0.0 then ScaledTrunc(extent, delta); Trunc(extent / delta) + 1
    else Trunc(extent / delta) + 1
  }

  lemma ScaledTrunc(x: real, delta: real)
    requires x >= 0.0 && delta > 0.0
    ensures 0 <= Trunc(x / delta)
    ensures Trunc(x / delta) as real * delta <= x < (Trunc(x / delta) + 1) as real * delta
  {
    var q := x / delta;
    ScaleBelow(x, delta, Trunc(q) as real, (Trunc(q) + 1) as real);
  }

  /** From lo <= x / delta < hi follows lo * delta <= x < hi * delta. */
  lemma ScaleBelow(x: real, delta: real, lo: real, hi: real)
    requires delta > 0.0 && lo <= x / delta < hi
    ensures lo * delta <= x < hi * delta
  {
    assert (x / delta) * delta == x;
  }

  /** A rectangle of node indices: columns ix0 to ix1, rows iy0 to iy1. */
  datatype Box = Box(ix0: int, ix1: int, iy0: int, iy1: int)

  /**
   * The box covered by the physical rectangle (x0, y0)-(x1, y1), each
   * coordinate truncated to a node index. A rectangle with non-negative,
   * ordered corners gives non-negative, ordered indices.
   */
  function BoxOf(x0: real, y0: real, x1: real, y1: real, delta: real): (r: Box)
    requires delta > 0.0
    ensures 0.0 <= x0 <= x1 ==> 0 <= r.ix0 <= r.ix1
    ensures 0.0 <= y0 <= y1 ==> 0 <= r.iy0 <= r.iy1
  {
    ScaledMonotone(x0, x1, delta);
    ScaledMonotone(y0, y1, delta);
    Box(Trunc(x0 / delta), Trunc(x1 / delta), Trunc(y0 / delta), Trunc(y1 / delta))
  }

  /** Truncating two ordered non-negative coordinates, each divided by delta, keeps them ordered. */
  lemma ScaledMonotone(x0: real, x1: real, delta: real)
    requires delta > 0.0
    ensures 0.0 <= x0 <= x1 ==> 0 <= Trunc(x0 / delta) <= Trunc(x1 / delta)
  {
    if 0.0 <= x0 <= x1 {
      assert x0 / delta <= x1 / delta;
      TruncMonotone(x0 / delta, x1 / delta);
    }
  }

  /** The rectangle (0, 0)-(a, b) covers exactly the whole lattice of NodeCount(b) rows and NodeCount(a) columns. */
  lemma OuterBoxOf(a: real, b: real, delta: real)
    requires delta > 0.0 && a >= 0.0 && b >= 0.0
    ensures BoxOf(0.0, 0.0, a, b, delta) == OuterBox(NodeCount(b, delta), NodeCount(a, delta))
  {
    assert 0.0 / delta == 0.0;
  }

  /** A rectangle with non-negative corners whose far corner truncates to a node index stays inside the lattice. */
  lemma BoxOfInGrid(x0: real, y0: real, x1: real, y1: real, delta: real, rows: int, cols: int)
    requires delta > 0.0 && 0.0 <= x0 <= x1 && 0.0 <= y0 <= y1
    requires Trunc(x1 / delta) < cols && Trunc(y1 / delta) < rows
    ensures BoxInGrid(BoxOf(x0, y0, x1, y1, delta), rows, cols)
  {
  }

  /** Node (row j, column i) lies on the contour of box b: on its top or bottom row, or on its left or right column. */
  predicate OnPerimeter(b: Box, j: int, i: int) {
    ((j == b.iy0 || j == b.iy1) && b.ix0 <= i <= b.ix1) ||
    ((i == b.ix0 || i == b.ix1) && b.iy0 <= j <= b.iy1)
  }

  /** Node (row j, column i) lies on the outermost ring of a rows x cols lattice. */
  predicate OnRing(rows: int, cols: int, j: int, i: int) {
    j == 0 || j == rows - 1 || i == 0 || i == cols - 1
  }

  /** Every index the stamping loops touch is a valid node index. */
  predicate BoxInGrid(b: Box, rows: int, cols: int) {
    0 <= b.ix0 < cols && 0 <= b.ix1 < cols && 0 <= b.iy0 < rows && 0 <= b.iy1 < rows
  }

  /** The box spanning the whole lattice. */
  function OuterBox(rows: int, cols: int): Box {
    Box(0, cols - 1, 0, rows - 1)
  }

  predicate IsGrid<T>(g: seq<seq<T>>, rows: int, cols: int) {
    |g| == rows && forall j :: 0 <= j < rows ==> |g[j]| == cols
  }

  function Width<T>(g: seq<seq<T>>): nat {
    if |g| == 0 then 0 else |g[0]|
  }

  predicate Rectangular<T>(g: seq<seq<T>>) {
    IsGrid(g, |g|, Width(g))
  }

  /** Node (row j, column i) is not on the outer ring. */
  predicate Interior<T>(g: seq<seq<T>>, i: int, j: int) {
    1 <= j < |g| - 1 && 1 <= i < Width(g) - 1
  }


  /** Every node potential lies in [lo, hi]. */
  predicate Within(g: Grid, lo: real, hi: real) {
    forall j, i :: 0 <= j < |g| && 0 <= i < |g[j]| ==> lo <= g[j][i] <= hi
  }

  /** Two lattices of the same shape that agree at every node are equal. */
  lemma GridEq<T>(x: seq<seq<T>>, y: seq<seq<T>>, rows: nat, cols: nat)
    requires IsGrid(x, rows, cols) && IsGrid(y, rows, cols)
    requires forall j, i :: 0 <= j < rows && 0 <= i < cols ==> x[j][i] == y[j][i]
    ensures x == y
  {
    forall j | 0 <= j < rows
      ensures x[j] == y[j]
    {
      assert forall i :: 0 <= i < cols ==> x[j][i] == y[j][i];
    }
  }

  /** The lattice with every node at 0.0. */
  function Zeros(rows: nat, cols: nat): (g: Grid)
    ensures IsGrid(g, rows, cols)
    ensures forall j, i :: 0 <= j < rows && 0 <= i < cols ==> g[j][i] == 0.0
  {
    seq(rows, _ => seq(cols, _ => 0.0))
  }

  /** The mask with no node fixed. */
  function NoneFixed(rows: nat, cols: nat): (m: Mask)
    ensures IsGrid(m, rows, cols)
    ensures forall j, i :: 0 <= j < rows && 0 <= i < cols ==> !m[j][i]
  {
    seq(rows, _ => seq(cols, _ => false))
  }

  /** The potentials after the contour of b has been set to v. */
  function StampPotential(g: Grid, b: Box, v: real): (r: Grid)
    ensures |r| == |g| && forall j :: 0 <= j < |g| ==> |r[j]| == |g[j]|
    ensures forall j, i :: 0 <= j < |g| && 0 <= i < |g[j]| && OnPerimeter(b, j, i) ==> r[j][i] == v
    ensures forall j, i :: 0 <= j < |g| && 0 <= i < |g[j]| && !OnPerimeter(b, j, i) ==> r[j][i] == g[j][i]
  {
    seq(|g|, j requires 0 <= j < |g| =>
      seq(|g[j]|, i requires 0 <= i < |g[j]| => if OnPerimeter(b, j, i) then v else g[j][i]))
  }

  /** The mask after the contour of b has been marked fixed. */
  function StampMask(m: Mask, b: Box): (r: Mask)
    ensures |r| == |m| && forall j :: 0 <= j < |m| ==> |r[j]| == |m[j]|
    ensures forall j, i :: 0 <= j < |m| && 0 <= i < |m[j]| ==> (r[j][i] <==> OnPerimeter(b, j, i) || m[j][i])
  {
    seq(|m|, j requires 0 <= j < |m| =>
      seq(|m[j]|, i requires 0 <= i < |m[j]| => OnPerimeter(b, j, i) || m[j][i]))
  }

  /** Potentials right after construction: all zero, then the outer ring at ae, then the inner contour at ai. */
  function InitialPotential(rows: nat, cols: nat, inner: Box, ae: real, ai: real): (g: Grid)
    ensures IsGrid(g, rows, cols)
    ensures forall j, i :: 0 <= j < rows && 0 <= i < cols && OnPerimeter(inner, j, i) ==> g[j][i] == ai
  {
    StampPotential(StampPotential(Zeros(rows, cols), OuterBox(rows, cols), ae), inner, ai)
  }

  /** Fixed nodes right after construction: the outer ring and the inner contour. */
  function InitialMask(rows: nat, cols: nat, inner: Box): (m: Mask)
    ensures IsGrid(m, rows, cols)
    ensures forall j, i :: 0 <= j < rows && 0 <= i < cols ==> (m[j][i] <==> OnPerimeter(inner, j, i) || OnRing(rows, cols, j, i))
  {
    StampMask(StampMask(NoneFixed(rows, cols), OuterBox(rows, cols)), inner)
  }

  /**
   * The layout construction produces: the inner contour holds ai (it is
   * stamped last, so it wins where it touches the ring), the rest of the
   * outer ring holds ae, both are fixed, and every other node is a free 0.0.
   */
  lemma InitialLayout(rows: nat, cols: nat, inner: Box, ae: real, ai: real, j: int, i: int)
    requires 0 <= j < rows && 0 <= i < cols
    ensures InitialMask(rows, cols, inner)[j][i] == (OnPerimeter(inner, j, i) || OnRing(rows, cols, j, i))
    ensures InitialPotential(rows, cols, inner, ae, ai)[j][i] ==
      if OnPerimeter(inner, j, i) then ai else if OnRing(rows, cols, j, i) then ae else 0.0
  {
    assert OnPerimeter(OuterBox(rows, cols), j, i) == OnRing(rows, cols, j, i);
  }

  /** Right after construction every potential lies between the smallest and largest of 0, ae and ai. */
  lemma InitialWithin(rows: nat, cols: nat, inner: Box, ae: real, ai: real)
    ensures Within(InitialPotential(rows, cols, inner, ae, ai), Min(0.0, Min(ae, ai)), Max(0.0, Max(ae, ai)))
  {
    var g := InitialPotential(rows, cols, inner, ae, ai);
    forall j, i | 0 <= j < |g| && 0 <= i < |g[j]|
      ensures Min(0.0, Min(ae, ai)) <= g[j][i] <= Max(0.0, Max(ae, ai))
    {
      InitialLayout(rows, cols, inner, ae, ai, j, i);
    }
  }
}

=== FILE: magnetico.dfy ===
/**
 * The solver object. It keeps the problem geometry, the node potentials and
 * the mask of fixed nodes; construction stamps the two boundary contours onto
 * the arrays, relaxation updates the potentials in place, and the field and
 * the inductance are read off the current potentials.
 */
module Solver {
  import opened Lattice
  import opened Relaxation
  import opened MagneticField
  import opened Inductance

  class Magnetico {
    /** Width and height of the domain. */
    const a: real
    const b: real
    /** Width and height of the inner conductor, and the offset of its lower-left corner. */
    const c: real
    const d: real
    const g: real
    const h: real
    /** Grid step. */
    const delta: real
    /** Fixed potentials of the inner conductor and of the outer boundary, in micro-webers per metre. */
    const innerPotential: real
    const outerPotential: real
    /** Permeability of the medium. */
    const mi: real
    /** Number of node rows and node columns. */
    const rows: nat
    const cols: nat
    /** Node potentials: pot[j, i] is the node in row j, column i. */
    const pot: array2<real>
    /** fixed[j, i] holds for the nodes on a stamped contour, which relaxation never updates. */
    const fixed: array2<bool>

    /**
     * What construction establishes and the const fields keep: a positive
     * step and permeability, non-negative lengths and offsets, a lattice of
     * NodeCount(b) rows and NodeCount(a) columns held by both arrays, and an
     * inner contour inside it.
     */
    ghost predicate Valid() {
      delta > 0.0 && mi > 0.0 &&
      a >= 0.0 && b >= 0.0 && c >= 0.0 && d >= 0.0 && g >= 0.0 && h >= 0.0 &&
      rows == NodeCount(b, delta) && cols == NodeCount(a, delta) && rows >= 1 && cols >= 1 &&
      pot.Length0 == rows && pot.Length1 == cols &&
      fixed.Length0 == rows && fixed.Length1 == cols &&
      BoxInGrid(InnerBox(), rows, cols)
    }

    /** The potentials as a value. */
    function Snapshot(): (s: Grid)
      reads pot
      ensures IsGrid(s, pot.Length0, pot.Length1) && Rectangular(s)
      ensures pot.Length0 > 0 ==> Width(s) == pot.Length1
      ensures forall j, i :: 0 <= j < pot.Length0 && 0 <= i < pot.Length1 ==> s[j][i] == pot[j, i]
    {
      seq(pot.Length0, j requires 0 <= j < pot.Length0 reads pot =>
        seq(pot.Length1, i requires 0 <= i < pot.Length1 reads pot => pot[j, i]))
    }

    /** The fixed-node mask as a value. */
    ghost function FixedMask(): (m: Mask)
      reads fixed
      ensures IsGrid(m, fixed.Length0, fixed.Length1)
      ensures forall j, i :: 0 <= j < fixed.Length0 && 0 <= i < fixed.Length1 ==> m[j][i] == fixed[j, i]
    {
      seq(fixed.Length0, j requires 0 <= j < fixed.Length0 reads fixed =>
        seq(fixed.Length1, i requires 0 <= i < fixed.Length1 reads fixed => fixed[j, i]))
    }

    /** The box of node indices of the inner conductor's contour. */
    function InnerBox(): Box
      requires delta > 0.0
    {
      BoxOf(g, h, g + c, h + d, delta)
    }

    /** The potential array holds exactly the lattice t. */
    ghost predicate Holds(t: Grid)
      reads pot
    {
      IsGrid(t, pot.Length0, pot.Length1) &&
      forall j, i :: 0 <= j < pot.Length0 && 0 <= i < pot.Length1 ==> pot[j, i] == t[j][i]
    }

    /** The mask array holds exactly the mask t. */
    ghost predicate HoldsMask(t: Mask)
      reads fixed
    {
      IsGrid(t, fixed.Length0, fixed.Length1) &&
      forall j, i :: 0 <= j < fixed.Length0 && 0 <= i < fixed.Length1 ==> fixed[j, i] == t[j][i]
    }

    lemma SnapshotIs(t: Grid)
      requires Holds(t)
      ensures Snapshot() == t
    {
      GridEq(Snapshot(), t, pot.Length0, pot.Length1);
    }

    lemma FixedMaskIs(t: Mask)
      requires HoldsMask(t)
      ensures FixedMask() == t
    {
      GridEq(FixedMask(), t, fixed.Length0, fixed.Length1);
    }

    /**
     * Builds the lattice: floor(b / delta) + 1 rows and floor(a / delta) + 1
     * columns of 0.0, then the outer boundary stamped at the outer potential
     * and the inner conductor's contour stamped, last, at the inner potential.
     */
    constructor (a: real, b: real, c: real, d: real, g: real, h: real, delta: real,
                 interno: real, externo: real, mi: real)
      requires delta > 0.0 && mi > 0.0
      requires a >= 0.0 && b >= 0.0 && c >= 0.0 && d >= 0.0 && g >= 0.0 && h >= 0.0
      requires Trunc((g + c) / delta) < NodeCount(a, delta) && Trunc((h + d) / delta) < NodeCount(b, delta)
      ensures Valid() && fresh(pot) && fresh(fixed)
      ensures this.a == a && this.b == b && this.c == c && this.d == d && this.g == g && this.h == h
      ensures this.delta == delta && this.mi == mi
      ensures innerPotential == interno && outerPotential == externo
      ensures rows == NodeCount(b, delta) && cols == NodeCount(a, delta)
      ensures Snapshot() == InitialPotential(rows, cols, InnerBox(), externo, interno)
      ensures FixedMask() == InitialMask(rows, cols, InnerBox())
    {
      this.a, this.b, this.c, this.d, this.g, this.h := a, b, c, d, g, h;
      this.delta, this.mi := delta, mi;
      innerPotential, outerPotential := interno, externo;
      var nLin, nCol := NodeCount(b, delta), NodeCount(a, delta);
      rows, cols := nLin, nCol;
      pot := new real[nLin, nCol]((_, _) => 0.0);
      fixed := new bool[nLin, nCol]((_, _) => false);
      OuterBoxOf(a, b, delta);
      BoxOfInGrid(g, h, g + c, h + d, delta, nLin, nCol);
      new;
      SnapshotIs(Zeros(rows, cols));
      FixedMaskIs(NoneFixed(rows, cols));
      StampContours();
    }

    /**
     * The two stamps of construction on a blank lattice: the outer boundary
     * at the outer potential, then the inner conductor's contour at the inner
     * potential.
     */
    method StampContours()
      requires Valid() && Snapshot() == Zeros(rows, cols) && FixedMask() == NoneFixed(rows, cols)
      modifies pot, fixed
      ensures Snapshot() == InitialPotential(rows, cols, InnerBox(), outerPotential, innerPotential)
      ensures FixedMask() == InitialMask(rows, cols, InnerBox())
    {
      OuterBoxOf(a, b, delta);
      StampRectangle(outerPotential, 0.0, 0.0, a, b);
      StampRectangle(innerPotential, g, h, g + c, h + d);
    }

    /**
     * Sets to v, and marks fixed, every node on the contour of the rectangle
     * (x0, y0)-(x1, y1): rows iy0 and iy1 across columns ix0..ix1, then
     * columns ix0 and ix1 across rows iy0..iy1. Every other node is unchanged.
     */
    method StampRectangle(v: real, x0: real, y0: real, x1: real, y1: real)
      requires Valid() && BoxInGrid(BoxOf(x0, y0, x1, y1, delta), rows, cols)
      modifies pot, fixed
      ensures Snapshot() == StampPotential(old(Snapshot()), BoxOf(x0, y0, x1, y1, delta), v)
      ensures FixedMask() == StampMask(old(FixedMask()), BoxOf(x0, y0, x1, y1, delta))
    {
      var box := BoxOf(x0, y0, x1, y1, delta);
      var ix0, ix1, iy0, iy1 := box.ix0, box.ix1, box.iy0, box.iy1;
      ghost var g0, m0 := Snapshot(), FixedMask();
      StampRows(v, ix0, ix1, iy0, iy1);
      StampColumns(v, ix0, ix1, iy0, iy1);
      ghost var g1, m1 := StampPotential(g0, box, v), StampMask(m0, box);
      forall jj, ii | 0 <= jj < rows && 0 <= ii < cols
        ensures pot[jj, ii] == g1[jj][ii] && fixed[jj, ii] == m1[jj][ii]
      {
        assert g1[jj][ii] == if OnPerimeter(box, jj, ii) then v else g0[jj][ii];
        assert m1[jj][ii] == (OnPerimeter(box, jj, ii) || m0[jj][ii]);
      }
      SnapshotIs(StampPotential(g0, box, v));
      FixedMaskIs(StampMask(m0, box));
    }

    /** The first loop of a stamp: rows iy0 and iy1 set to v, and fixed, across columns ix0..ix1. */
    method StampRows(v: real, ix0: int, ix1: int, iy0: int, iy1: int)
      requires Valid() && BoxInGrid(Box(ix0, ix1, iy0, iy1), rows, cols)
      modifies pot, fixed
      ensures forall jj, ii :: 0 <= jj < rows && 0 <= ii < cols ==>
        pot[jj, ii] == (if (jj == iy0 || jj == iy1) && ix0 <= ii <= ix1 then v else old(pot[jj, ii])) &&
        fixed[jj, ii] == (((jj == iy0 || jj == iy1) && ix0 <= ii <= ix1) || old(fixed[jj, ii]))
    {
      var i := ix0;
      while i <= ix1
        invariant ix0 <= i && (i <= ix1 + 1 || i == ix0)
        invariant forall jj, ii :: 0 <= jj < rows && 0 <= ii < cols ==>
          pot[jj, ii] == (if (jj == iy0 || jj == iy1) && ix0 <= ii < i then v else old(pot[jj, ii])) &&
          fixed[jj, ii] == (((jj == iy0 || jj == iy1) && ix0 <= ii < i) || old(fixed[jj, ii]))
      {
        Fix(iy0, i, v);
        Fix(iy1, i, v);
        i := i + 1;
      }
    }

    /** The second loop of a stamp: columns ix0 and ix1 set to v, and fixed, across rows iy0..iy1. */
    method StampColumns(v: real, ix0: int, ix1: int, iy0: int, iy1: int)
      requires Valid() && BoxInGrid(Box(ix0, ix1, iy0, iy1), rows, cols)
      modifies pot, fixed
      ensures forall jj, ii :: 0 <= jj < rows && 0 <= ii < cols ==>
        pot[jj, ii] == (if (ii == ix0 || ii == ix1) && iy0 <= jj <= iy1 then v else old(pot[jj, ii])) &&
        fixed[jj, ii] == (((ii == ix0 || ii == ix1) && iy0 <= jj <= iy1) || old(fixed[jj, ii]))
    {
      var j := iy0;
      while j <= iy1
        invariant iy0 <= j && (j <= iy1 + 1 || j == iy0)
        invariant forall jj, ii :: 0 <= jj < rows && 0 <= ii < cols ==>
          pot[jj, ii] == (if (ii == ix0 || ii == ix1) && iy0 <= jj < j then v else old(pot[jj, ii])) &&
          fixed[jj, ii] == (((ii == ix0 || ii == ix1) && iy0 <= jj < j) || old(fixed[jj, ii]))
      {
        Fix(j, ix0, v);
        Fix(j, ix1, v);
        j := j + 1;
      }
    }

    /** Node (row j, column i) becomes a fixed node holding v; every other node is unchanged. */
    method Fix(j: int, i: int, v: real)
      requires 0 <= j < pot.Length0 && 0 <= i < pot.Length1
      requires fixed.Length0 == pot.Length0 && fixed.Length1 == pot.Length1
      modifies pot, fixed
      ensures pot[j, i] == v && fixed[j, i]
      ensures forall jj, ii :: 0 <= jj < pot.Length0 && 0 <= ii < pot.Length1 && (jj != j || ii != i) ==>
        pot[jj, ii] == old(pot[jj, ii]) && fixed[jj, ii] == old(fixed[jj, ii])
    {
      pot[j, i] := v;
      fixed[j, i] := true;
    }

    /**
     * One Gauss-Seidel sweep in place: column i from 1 to cols - 2, within it
     * row j from 1 to rows - 2, each free node replaced by the mean of its four
     * neighbours as the array holds them at that moment.
     */
    method SweepGrid()
      requires Valid()
      modifies pot
      ensures Snapshot() == Sweep(old(Snapshot()), FixedMask())
    {
      ghost var g0, m, n := Snapshot(), FixedMask(), InnerCount(cols);
      var i := 1;
      while i < cols - 1
        invariant 1 <= i && i - 1 <= n
        invariant FixedMask() == m
        invariant Snapshot() == ColsDone(g0, m, i - 1)
      {
        SweepColumn(i);
        i := i + 1;
      }
      assert i - 1 == n;
    }

    /** Column i of a sweep: row j from 1 to rows - 2, each free node replaced by the mean of its neighbours. */
    method SweepColumn(i: int)
      requires Valid() && 1 <= i < cols - 1
      modifies pot
      ensures Snapshot() == RowsDone(old(Snapshot()), FixedMask(), i, InnerCount(rows))
    {
      ghost var g0, m, n := Snapshot(), FixedMask(), InnerCount(rows);
      var j := 1;
      while j < rows - 1
        invariant 1 <= j && j - 1 <= n
        invariant FixedMask() == m
        invariant Snapshot() == RowsDone(g0, m, i, j - 1)
      {
        RelaxNode(i, j);
        j := j + 1;
      }
      assert j - 1 == n;
    }

    /** Node (column i, row j), unless fixed, takes the mean of its four neighbours; nothing else changes. */
    method RelaxNode(i: int, j: int)
      requires Valid() && 1 <= i < cols - 1 && 1 <= j < rows - 1
      modifies pot
      ensures Snapshot() == UpdateNode(old(Snapshot()), FixedMask(), i, j)
    {
      ghost var after := UpdateNode(Snapshot(), FixedMask(), i, j);
      if !fixed[j, i] {
        pot[j, i] := (pot[j, i - 1] + pot[j, i + 1] + pot[j + 1, i] + pot[j - 1, i]) / 4.0;
      }
      SnapshotIs(after);
    }

    /**
     * Runs n sweeps (none when n is not positive). Fixed nodes and the outer
     * ring keep their values, and any bounds every node obeyed before still
     * hold after.
     */
    method IteratePotentials(n: int)
      requires Valid()
      modifies pot
      ensures Snapshot() == Relax(old(Snapshot()), FixedMask(), if n > 0 then n else 0)
      ensures forall j, i :: 0 <= j < rows && 0 <= i < cols && (fixed[j, i] || OnRing(rows, cols, j, i)) ==>
        pot[j, i] == old(pot[j, i])
      ensures forall lo: real, hi: real :: Within(old(Snapshot()), lo, hi) ==> Within(Snapshot(), lo, hi)
    {
      ghost var g0, m := Snapshot(), FixedMask();
      var num := 1;
      while num <= n
        invariant 1 <= num && (num <= n + 1 || num == 1)
        invariant FixedMask() == m
        invariant Snapshot() == Relax(g0, m, num - 1)
      {
        SweepGrid();
        num := num + 1;
      }
      assert num - 1 == if n > 0 then n else 0;
      Relaxed(g0, num - 1);
    }

    /**
     * Once the array holds k sweeps of g0, its fixed nodes and outer ring
     * still hold the values of g0, and bounds g0 obeyed still hold.
     */
    lemma Relaxed(g0: Grid, k: nat)
      requires Valid() && IsGrid(g0, rows, cols) && Snapshot() == Relax(g0, FixedMask(), k)
      ensures forall j, i :: 0 <= j < rows && 0 <= i < cols && (fixed[j, i] || OnRing(rows, cols, j, i)) ==>
        pot[j, i] == g0[j][i]
      ensures forall lo: real, hi: real :: Within(g0, lo, hi) ==> Within(Snapshot(), lo, hi)
    {
      forall lo: real, hi: real | Within(g0, lo, hi)
        ensures Within(Snapshot(), lo, hi)
      {
        RelaxWithin(g0, FixedMask(), k, lo, hi);
      }
      var m := FixedMask();
      forall j, i | 0 <= j < rows && 0 <= i < cols && (fixed[j, i] || OnRing(rows, cols, j, i))
        ensures pot[j, i] == g0[j][i]
      {
        assert m[j][i] == fixed[j, i];
        assert Relax(g0, m, k)[j][i] == g0[j][i];
      }
    }

    /** The field of every cell, built column by column into a sequence of rows - 1 rows of cols - 1 cells. */
    method FieldH() returns (cells: seq<seq<Cell>>)
      requires Valid()
      ensures cells == Field(Snapshot(), mi, delta)
    {
      cells := seq(rows - 1, _ => seq(cols - 1, _ => Cell(0.0, 0.0)));
      var i := 0;
      while i < cols - 1
        invariant 0 <= i <= cols - 1
        invariant IsGrid(cells, rows - 1, cols - 1)
        invariant forall jj, ii :: 0 <= jj < rows - 1 && 0 <= ii < i ==>
          cells[jj][ii] == CellH(Snapshot(), ii, jj, mi, delta)
      {
        var j := 0;
        while j < rows - 1
          invariant 0 <= j <= rows - 1
          invariant IsGrid(cells, rows - 1, cols - 1)
          invariant forall jj, ii :: 0 <= jj < rows - 1 && 0 <= ii < cols - 1 && (ii < i || (ii == i && jj < j)) ==>
            cells[jj][ii] == CellH(Snapshot(), ii, jj, mi, delta)
        {
          var a1, a2, a3, a4 := pot[j, i], pot[j, i + 1], pot[j + 1, i], pot[j + 1, i + 1];
          var cell := Cell(Scaled(a1 + a3 - a2 - a4, mi, delta), Scaled(a1 + a2 - a3 - a4, mi, delta));
          assert cell == CellH(Snapshot(), i, j, mi, delta);
          cells := cells[j := cells[j][i := cell]];
          j := j + 1;
        }
        i := i + 1;
      }
      GridEq(cells, Field(Snapshot(), mi, delta), rows - 1, cols - 1);
    }

    /**
     * The inductance per unit length: |Hx| added along row iy0 and subtracted
     * along row iy1, |Hy| added down column ix0 and subtracted down column
     * ix1, around the path rectangle (left column and bottom row on the inner
     * contour, right column and top row one node past it), and the flux
     * divided by that current; an error when a path cell lies outside the
     * field or the current is zero. The path fits exactly when the inner
     * contour stays two nodes short of the last node in each direction.
     */
    method InductanceEstimate() returns (r: Result<real>)
      requires Valid()
      ensures r == InductanceOf(Field(Snapshot(), mi, delta), PathBox(c, d, g, h, delta), innerPotential)
      ensures r != Err(PathOutsideField) <==>
        Trunc((g + c) / delta) + 2 <= Trunc(a / delta) && Trunc((h + d) / delta) + 2 <= Trunc(b / delta)
    {
      var field := FieldH();
      PathInsideExactly(a, b, c, d, g, h, delta, field);
      r := InductanceFrom(field, PathBox(c, d, g, h, delta), innerPotential);
    }
  }
}

=== FILE: relaxation.dfy ===
/**
 * Gauss-Seidel relaxation of the node potentials, as functions on values.
 * A sweep visits the interior nodes column by column (column i outermost,
 * row j innermost), skips fixed nodes, and replaces each free node with the
 * mean of its four neighbours as they stand at that moment.
 */
module Relaxation {
  import opened Lattice

  /**
   * Mean of the four axis neighbours of interior node (column i, row j),
   * which the row-major lattice holds at g[j][i]. It never leaves the range
   * spanned by those neighbours.
   */
  function Mean4(g: Grid, i: int, j: int): (r: real)
    requires Rectangular(g) && Interior(g, i, j)
    ensures Min(Min(g[j][i - 1], g[j][i + 1]), Min(g[j + 1][i], g[j - 1][i])) <= r
    ensures r <= Max(Max(g[j][i - 1], g[j][i + 1]), Max(g[j + 1][i], g[j - 1][i]))
  {
    (g[j][i - 1] + g[j][i + 1] + g[j + 1][i] + g[j - 1][i]) / 4.0
  }

  /** Potentials and mask have the same rows x columns shape. */
  predicate Compatible(g: Grid, m: Mask) {
    Rectangular(g) && IsGrid(m, |g|, Width(g))
  }

  /** How many interior indices an axis of n nodes has: those of range(1, n - 1). */
  function InnerCount(n: nat): nat {
    if n >= 2 then n - 2 else 0
  }

  /**
   * One visit of interior node (column i, row j): a free node takes the mean
   * of its neighbours, a fixed node keeps its value, and no other node changes.
   */
  function UpdateNode(g: Grid, m: Mask, i: int, j: int): (r: Grid)
    requires Compatible(g, m) && Interior(g, i, j)
    ensures IsGrid(r, |g|, Width(g)) && Width(r) == Width(g)
    ensures r[j][i] == if m[j][i] then g[j][i] else Mean4(g, i, j)
    ensures forall jj, ii :: 0 <= jj < |g| && 0 <= ii < Width(g) && (jj != j || ii != i) ==> r[jj][ii] == g[jj][ii]
  {
    if m[j][i] then g else g[j := g[j][i := Mean4(g, i, j)]]
  }

  /** The potentials once rows 1..k of interior column i have been visited, in increasing row order. */
  function RowsDone(g: Grid, m: Mask, i: int, k: nat): (r: Grid)
    requires Compatible(g, m) && 1 <= i < Width(g) - 1 && k <= InnerCount(|g|)
    ensures IsGrid(r, |g|, Width(g)) && Width(r) == Width(g)
    decreases k
  {
    if k == 0 then g else UpdateNode(RowsDone(g, m, i, k - 1), m, i, k)
  }

  /** The potentials once interior columns 1..k have been swept, in increasing column order. */
  function ColsDone(g: Grid, m: Mask, k: nat): (r: Grid)
    requires Compatible(g, m) && k <= InnerCount(Width(g))
    ensures IsGrid(r, |g|, Width(g)) && Width(r) == Width(g)
    decreases k
  {
    if k == 0 then g else RowsDone(ColsDone(g, m, k - 1), m, k, InnerCount(|g|))
  }

  /** One full Gauss-Seidel sweep over every interior node. It never changes a fixed node or a node of the outer ring. */
  function Sweep(g: Grid, m: Mask): (r: Grid)
    requires Compatible(g, m)
    ensures IsGrid(r, |g|, Width(g)) && Width(r) == Width(g)
    ensures forall j, i :: 0 <= j < |g| && 0 <= i < Width(g) && (m[j][i] || OnRing(|g|, Width(g), j, i)) ==>
      r[j][i] == g[j][i]
  {
    ColsDoneFrame(g, m, InnerCount(Width(g)));
    ColsDone(g, m, InnerCount(Width(g)))
  }

  /** n sweeps, one after another. However many run, fixed nodes and the outer ring keep their values. */
  function Relax(g: Grid, m: Mask, n: nat): (r: Grid)
    requires Compatible(g, m)
    ensures IsGrid(r, |g|, Width(g)) && Width(r) == Width(g)
    ensures forall j, i :: 0 <= j < |g| && 0 <= i < Width(g) && (m[j][i] || OnRing(|g|, Width(g), j, i)) ==>
      r[j][i] == g[j][i]
    decreases n
  {
    if n == 0 then g else Sweep(Relax(g, m, n - 1), m)
  }

  // ----- where a partial sweep has and has not been -----

  /** Visiting rows 1..k of column i leaves every other node as it was, and every fixed node too. */
  lemma {:induction false} RowsDoneUntouched(g: Grid, m: Mask, i: int, k: nat, jj: int, ii: int)
    requires Compatible(g, m) && 1 <= i < Width(g) - 1 && k <= InnerCount(|g|)
    requires 0 <= jj < |g| && 0 <= ii < Width(g)
    requires ii != i || jj == 0 || jj > k || m[jj][ii]
    ensures RowsDone(g, m, i, k)[jj][ii] == g[jj][ii]
    decreases k
  {
    if k > 0 {
      RowsDoneUntouched(g, m, i, k - 1, jj, ii);
    }
  }

  /** Once row jj of column i has been visited, later visits in that column leave it alone. */
  lemma {:induction false} RowsDoneSettled(g: Grid, m: Mask, i: int, k: nat, k': nat, jj: int)
    requires Compatible(g, m) && 1 <= i < Width(g) - 1 && k <= k' <= InnerCount(|g|)
    requires 0 <= jj <= k
    ensures RowsDone(g, m, i, k')[jj][i] == RowsDone(g, m, i, k)[jj][i]
    decreases k'
  {
    if k' > k {
      RowsDoneSettled(g, m, i, k, k' - 1, jj);
    }
  }

  /** Sweeping columns 1..k leaves later columns, the ring and every fixed node as they were. */
  lemma {:induction false} ColsDoneUntouched(g: Grid, m: Mask, k: nat, jj: int, ii: int)
    requires Compatible(g, m) && k <= InnerCount(Width(g))
    requires 0 <= jj < |g| && 0 <= ii < Width(g)
    requires ii == 0 || ii > k || jj == 0 || jj == |g| - 1 || m[jj][ii]
    ensures ColsDone(g, m, k)[jj][ii] == g[jj][ii]
    decreases k
  {
    if k > 0 {
      ColsDoneUntouched(g, m, k - 1, jj, ii);
      RowsDoneUntouched(ColsDone(g, m, k - 1), m, k, InnerCount(|g|), jj, ii);
    }
  }

  /** Once column ii has been swept, sweeping later columns leaves it alone. */
  lemma {:induction false} ColsDoneSettled(g: Grid, m: Mask, k: nat, k': nat, jj: int, ii: int)
    requires Compatible(g, m) && k <= k' <= InnerCount(Width(g))
    requires 0 <= jj < |g| && 0 <= ii <= k && ii < Width(g)
    ensures ColsDone(g, m, k')[jj][ii] == ColsDone(g, m, k)[jj][ii]
    decreases k'
  {
    if k' > k {
      ColsDoneSettled(g, m, k, k' - 1, jj, ii);
      RowsDoneUntouched(ColsDone(g, m, k' - 1), m, k', InnerCount(|g|), jj, ii);
    }
  }

  /** Sweeping columns 1..k leaves the ring and every fixed node as they were. */
  lemma ColsDoneFrame(g: Grid, m: Mask, k: nat)
    requires Compatible(g, m) && k <= InnerCount(Width(g))
    ensures forall j, i :: 0 <= j < |g| && 0 <= i < Width(g) && (m[j][i] || OnRing(|g|, Width(g), j, i)) ==>
      ColsDone(g, m, k)[j][i] == g[j][i]
  {
    forall j, i | 0 <= j < |g| && 0 <= i < Width(g) && (m[j][i] || OnRing(|g|, Width(g), j, i))
      ensures ColsDone(g, m, k)[j][i] == g[j][i]
    {
      ColsDoneUntouched(g, m, k, j, i);
    }
  }

  // ----- properties of a sweep -----

  /**
   * The Gauss-Seidel equation: after a sweep, a free interior node holds the
   * mean of its left and lower-row neighbours as they are AFTER the sweep
   * (already visited) and of its right and upper-row neighbours as they were
   * BEFORE it (not yet visited).
   */
  lemma GaussSeidelStep(g: Grid, m: Mask, i: int, j: int)
    requires Compatible(g, m) && Interior(g, i, j) && !m[j][i]
    ensures Sweep(g, m)[j][i] ==
      (Sweep(g, m)[j][i - 1] + g[j][i + 1] + g[j + 1][i] + Sweep(g, m)[j - 1][i]) / 4.0
  {
    var b := RowsDone(ColsDone(g, m, i - 1), m, i, j - 1);
    SweepVisited(g, m, i, j);
    NotYetVisited(g, m, i, j);
    assert Mean4(b, i, j) == (b[j][i - 1] + b[j][i + 1] + b[j + 1][i] + b[j - 1][i]) / 4.0;
  }

  /**
   * What the sweep has done by the time it reaches node (column i, row j),
   * b being the lattice just before that visit: the node takes the mean of
   * its neighbours in b, and its left and lower neighbours, already visited,
   * hold in b their final values.
   */
  lemma SweepVisited(g: Grid, m: Mask, i: int, j: int)
    requires Compatible(g, m) && Interior(g, i, j) && !m[j][i]
    ensures var b := RowsDone(ColsDone(g, m, i - 1), m, i, j - 1);
      var s := Sweep(g, m);
      s[j][i] == Mean4(b, i, j) && s[j][i - 1] == b[j][i - 1] && s[j - 1][i] == b[j - 1][i]
  {
    var s := Sweep(g, m);
    var lastCol, lastRow := InnerCount(Width(g)), InnerCount(|g|);
    var c := ColsDone(g, m, i - 1);
    var b := RowsDone(c, m, i, j - 1);
    // the node itself is final once visited
    assert s[j][i] == Mean4(b, i, j) by {
      assert RowsDone(c, m, i, j) == UpdateNode(b, m, i, j);
      RowsDoneSettled(c, m, i, j, lastRow, j);
      ColsDoneSettled(g, m, i, lastCol, j, i);
    }
    // left neighbour: its column was finished before column i started
    assert s[j][i - 1] == b[j][i - 1] by {
      RowsDoneUntouched(c, m, i, j - 1, j, i - 1);
      ColsDoneSettled(g, m, i - 1, lastCol, j, i - 1);
    }
    // lower-row neighbour: visited just before, final from then on
    RowsDoneSettled(c, m, i, j - 1, lastRow, j - 1);
    ColsDoneSettled(g, m, i, lastCol, j - 1, i);
  }

  /** The right and upper neighbours of node (column i, row j) are still unvisited when the sweep reaches it. */
  lemma NotYetVisited(g: Grid, m: Mask, i: int, j: int)
    requires Compatible(g, m) && Interior(g, i, j)
    ensures var b := RowsDone(ColsDone(g, m, i - 1), m, i, j - 1);
      b[j][i + 1] == g[j][i + 1] && b[j + 1][i] == g[j + 1][i]
  {
    var c := ColsDone(g, m, i - 1);
    assert RowsDone(c, m, i, j - 1)[j][i + 1] == g[j][i + 1] by {
      RowsDoneUntouched(c, m, i, j - 1, j, i + 1);
      ColsDoneUntouched(g, m, i - 1, j, i + 1);
    }
    RowsDoneUntouched(c, m, i, j - 1, j + 1, i);
    ColsDoneUntouched(g, m, i - 1, j + 1, i);
  }

  /** The equation a swept lattice t satisfies at node (row j, column i), relative to the lattice g before the sweep. */
  predicate GaussSeidelAt(g: Grid, m: Mask, t: Grid, j: int, i: int)
    requires Compatible(g, m) && IsGrid(t, |g|, Width(g)) && 0 <= j < |g| && 0 <= i < Width(g)
  {
    if m[j][i] || OnRing(|g|, Width(g), j, i) then t[j][i] == g[j][i]
    else t[j][i] == (t[j][i - 1] + g[j][i + 1] + g[j + 1][i] + t[j - 1][i]) / 4.0
  }

  /** The swept lattice satisfies the Gauss-Seidel equations at every node. */
  lemma SweepSatisfiesGaussSeidel(g: Grid, m: Mask)
    requires Compatible(g, m)
    ensures forall j, i :: 0 <= j < |g| && 0 <= i < Width(g) ==> GaussSeidelAt(g, m, Sweep(g, m), j, i)
  {
    forall j, i | 0 <= j < |g| && 0 <= i < Width(g)
      ensures GaussSeidelAt(g, m, Sweep(g, m), j, i)
    {
      if !(m[j][i] || OnRing(|g|, Width(g), j, i)) {
        GaussSeidelStep(g, m, i, j);
      }
    }
  }

  /** Conversely, the Gauss-Seidel equations determine the swept lattice: no other lattice satisfies them. */
  lemma GaussSeidelDetermines(g: Grid, m: Mask, t: Grid)
    requires Compatible(g, m) && IsGrid(t, |g|, Width(g))
    requires forall j, i :: 0 <= j < |g| && 0 <= i < Width(g) ==> GaussSeidelAt(g, m, t, j, i)
    ensures t == Sweep(g, m)
  {
    SweepSatisfiesGaussSeidel(g, m);
    forall j, i | 0 <= j < |g| && 0 <= i < Width(g)
      ensures t[j][i] == Sweep(g, m)[j][i]
    {
      AgreeAt(g, m, t, j, i);
    }
    GridEq(t, Sweep(g, m), |g|, Width(g));
  }

  lemma {:induction false} AgreeAt(g: Grid, m: Mask, t: Grid, j: int, i: int)
    requires Compatible(g, m) && IsGrid(t, |g|, Width(g))
    requires forall j, i :: 0 <= j < |g| && 0 <= i < Width(g) ==> GaussSeidelAt(g, m, t, j, i)
    requires forall j, i :: 0 <= j < |g| && 0 <= i < Width(g) ==> GaussSeidelAt(g, m, Sweep(g, m), j, i)
    requires 0 <= j < |g| && 0 <= i < Width(g)
    ensures t[j][i] == Sweep(g, m)[j][i]
    decreases i, j
  {
    assert GaussSeidelAt(g, m, t, j, i) && GaussSeidelAt(g, m, Sweep(g, m), j, i);
    if !(m[j][i] || OnRing(|g|, Width(g), j, i)) {
      AgreeAt(g, m, t, j, i - 1);
      AgreeAt(g, m, t, j - 1, i);
    }
  }

  /** Discrete maximum principle for one sweep: if every node lies in [lo, hi] before, every node lies in [lo, hi] after. */
  lemma SweepWithin(g: Grid, m: Mask, lo: real, hi: real)
    requires Compatible(g, m) && Within(g, lo, hi)
    ensures Within(Sweep(g, m), lo, hi)
  {
    var s := Sweep(g, m);
    forall j, i | 0 <= j < |s| && 0 <= i < |s[j]|
      ensures lo <= s[j][i] <= hi
    {
      SweepWithinAt(g, m, lo, hi, j, i);
    }
  }

  lemma {:induction false} SweepWithinAt(g: Grid, m: Mask, lo: real, hi: real, j: int, i: int)
    requires Compatible(g, m) && Within(g, lo, hi)
    requires 0 <= j < |g| && 0 <= i < Width(g)
    ensures lo <= Sweep(g, m)[j][i] <= hi
    decreases i, j
  {
    if !(m[j][i] || OnRing(|g|, Width(g), j, i)) {
      GaussSeidelStep(g, m, i, j);
      SweepWithinAt(g, m, lo, hi, j, i - 1);
      SweepWithinAt(g, m, lo, hi, j - 1, i);
    }
  }

  /** With no free interior node a sweep changes nothing. */
  lemma SweepWithoutFreeNodes(g: Grid, m: Mask)
    requires Compatible(g, m)
    requires forall j, i :: Interior(g, i, j) ==> m[j][i]
    ensures Sweep(g, m) == g
  {
    forall j, i | 0 <= j < |g| && 0 <= i < Width(g)
      ensures Sweep(g, m)[j][i] == g[j][i]
    {
      assert m[j][i] || OnRing(|g|, Width(g), j, i);
    }
    GridEq(Sweep(g, m), g, |g|, Width(g));
  }

  // ----- properties of n sweeps -----

  /** However many sweeps run, bounds that held before still hold. */
  lemma {:induction false} RelaxWithin(g: Grid, m: Mask, n: nat, lo: real, hi: real)
    requires Compatible(g, m) && Within(g, lo, hi)
    ensures Within(Relax(g, m, n), lo, hi)
    decreases n
  {
    if n > 0 {
      RelaxWithin(g, m, n - 1, lo, hi);
      SweepWithin(Relax(g, m, n - 1), m, lo, hi);
    }
  }

  /** Running p sweeps and then q more is the same as running p + q sweeps. */
  lemma {:induction false} RelaxCompose(g: Grid, m: Mask, p: nat, q: nat)
    requires Compatible(g, m)
    ensures Relax(g, m, p + q) == Relax(Relax(g, m, p), m, q)
    decreases q
  {
    if q > 0 {
      var h := Relax(g, m, p);
      assert Compatible(h, m);
      assert Relax(g, m, p + (q - 1)) == Relax(h, m, q - 1) by {
        RelaxCompose(g, m, p, q - 1);
      }
      assert p + q - 1 == p + (q - 1);
    }
  }

  /**
   * Starting from the constructed lattice, no number of sweeps takes a node
   * outside the range spanned by 0.0 (the start value of free nodes) and the
   * two contour potentials.
   */
  lemma MaximumPrinciple(rows: nat, cols: nat, inner: Box, ae: real, ai: real, n: nat)
    ensures var g := InitialPotential(rows, cols, inner, ae, ai);
      var m := InitialMask(rows, cols, inner);
      Compatible(g, m) && Within(Relax(g, m, n), Min(0.0, Min(ae, ai)), Max(0.0, Max(ae, ai)))
  {
    var g := InitialPotential(rows, cols, inner, ae, ai);
    var m := InitialMask(rows, cols, inner);
    InitialWithin(rows, cols, inner, ae, ai);
    RelaxWithin(g, m, n, Min(0.0, Min(ae, ai)), Max(0.0, Max(ae, ai)));
  }
}
